=== FILE: README.md ===
# Pinned-watchlist engine of the IdleMercher market page

This project models the pinned-watchlist logic of the market page in `script.js`. That logic is written against the DOM and `localStorage`; the model restates it as pure data operations and proves what they do. It covers:

- **Item names.** `formatItemName` turns an underscore-delimited `name_id` into a display name. The name table maps each internal id to such a name, and an id that is missing or maps to an empty name displays as `Unknown (<id>)`.
- **The price catalog** (`itemData`). There is one quote per feed item, and a missing price reads as 0. Lookup is by exact name and the first match wins (`Array.find`).
- **The cards.** Cards live in two ordered lists, one per container: buy orders and sell offers. A card records:
  - its name and category;
  - the price it was pinned with (the closure variable `price` that its move handler reuses);
  - its current price (`dataset.price`);
  - the text of its price box.

  The operations on cards are pinning from the search form, move, delete, typing into the price box, and the refresh from a new catalog (`updatePinnedPrices`). The flash condition of `checkPrice` is a predicate on one card.
- **Typed prices.** `formatNumber` strips commas, rejects empty or non-numeric text, and regroups the digits by thousands. The alert reads a typed price as `parseFloat` of the comma-stripped text. Prices are non-negative integers.
- **Persistence.** `savePinnedItems` writes one `{name, category, price, userPrice}` record per card. `restorePinnedItems` re-pins each record without a catalog check and refills the price box through `formatNumber`.
- **The countdown.** The `setInterval` body of `startCountdown` is a tick function on the integer counter.
- **The page.** The event handlers are modelled over the whole state: cards, storage key and catalog. Every user action that changes the cards ends in a save, and a price refresh saves nothing.

Modules follow the program's parts:

| module | part |
|---|---|
| `Wrappers` | `Option` and `Result` |
| `Text` | digit strings, comma stripping, thousands grouping |
| `NumberFormat` | `formatNumber` and the reading of typed prices |
| `ItemNames` | `formatItemName` and the name table |
| `Catalog` | categories, feed items, quotes, first-match lookup |
| `Watchlist` | cards and their operations |
| `Persistence` | save and restore |
| `Countdown` | the countdown tick |
| `Page` | the event handlers |

## Model

| member | source | states |
|---|---|---|
| Text.NatToString | script.js:9 | The decimal text of a number is a non-empty digit string without leading zeros, and it denotes that number. |
| Text.IntToString | script.js:57 | The decimal text of an id is non-empty and starts with a minus sign exactly when the id is negative. The digits after any sign denote the id's absolute value. |
| Text.StripCommas | script.js:7 | Removing commas never makes text longer. |
| Text.StripCommasNoComma | script.js:7 | Text without commas is left unchanged by comma stripping. |
| Text.StripCommasAppend | script.js:7 | Comma stripping distributes over concatenation. |
| Text.GroupLength | script.js:9 | Thousands grouping of `n` digits adds `(n - 1) / 3` commas. |
| Text.GroupCommas | script.js:9 | In grouped text, a position holds a comma exactly when it is not the first and lies a multiple of four from the end. |
| Text.GroupStripsBack | script.js:7-9 | Stripping the commas from grouped digits gives the digits back. |
| Text.DigitPrefix | script.js:226-227 | The prefix `parseFloat` reads is the longest leading run of digits: it is a prefix, it is all digits, and the next character is not a digit. |
| NumberFormat.FormatNumber | script.js:6-10 | `formatNumber` itself. `FormatNumberSpec` gives "" exactly for non-numeric text. `FormatNumberGrouped` gives the regrouped digits of the typed number otherwise. |
| NumberFormat.FormatNumberGrouped | script.js:9 | On a numeric entry, the output has a comma exactly every fourth position from the end and none at the front. Without its commas it is the decimal text of the typed number, with no leading zero. |
| NumberFormat.FormatNumberSpec | script.js:6-10 | `formatNumber` gives "" exactly for empty or non-numeric text after comma removal. Otherwise its result is numeric and denotes the same number. |
| NumberFormat.FormatNumberIdempotent | script.js:6-10 | Applying `formatNumber` to its own output changes nothing. |
| NumberFormat.EmptyIsFormatted | script.js:6-10 | The empty price box is a fixed point of `formatNumber`. |
| NumberFormat.ParseUserPrice | script.js:226-227 | The typed price reads as NaN exactly when the comma-stripped text does not start with a digit. |
| NumberFormat.ParseNumeric | script.js:226-227 | A numeric entry reads as exactly the number it denotes. |
| NumberFormat.ParseFormatted | script.js:226-227 | Reading back what `formatNumber` wrote gives the typed number, or NaN for a rejected entry. |
| NumberFormat.Ninety | script.js:6-10 | "90" is numeric, denotes 90, reads as 90 and is its own formatting. |
| NumberFormat.OneFifty | script.js:6-10 | "150" is numeric, denotes 150, reads as 150 and is its own formatting. |
| ItemNames.Split | script.js:261 | `split("_")` yields at least one piece, and no piece contains the separator. |
| ItemNames.JoinSplit | script.js:261-263 | Joining the pieces of a split with the same separator restores the text. |
| ItemNames.PipelineIsTitleCase | script.js:260-263 | Split, capitalize and join equals capitalizing character by character after each separator. |
| ItemNames.TitleCasePointwise | script.js:260-263 | Character-by-character title casing keeps the length and is described position by position. |
| ItemNames.FormatItemName | script.js:255-264 | `formatItemName` itself. `FormatItemNameSpec` states what it produces, character by character. |
| ItemNames.FormatItemNameSpec | script.js:255-264 | A non-string gives "Unknown". A string keeps its length, every `_` becomes a space, the first letter of each word is upper-cased, and every other character stays. |
| ItemNames.NameMap | script.js:26-30 | `itemIdMap` itself. `NameMapAbsent` and `NameMapLast` pin it: an unmentioned id is absent, and a mentioned one maps to its last row's formatted name. |
| ItemNames.NameMapAbsent | script.js:26-30 | An id that no row of the name table mentions is not in the map. |
| ItemNames.NameMapLast | script.js:26-30 | An id maps to the formatted `name_id` of the last row mentioning it. |
| ItemNames.DisplayName | script.js:57 | A display name is never empty. |
| ItemNames.DisplayNameAbsent | script.js:57 | An id absent from the name table displays as `Unknown (<id>)`. |
| ItemNames.DisplayNameLast | script.js:26-30 | A mapped id displays as its last row's formatted name, unless that `name_id` is "". In that case it falls back to `Unknown (<id>)`. |
| Catalog.BuildCatalog | script.js:56-60 | One quote per feed item, in order, named by the display name of the item's id. A price present in the feed is carried over unchanged. A quote's price is 0 exactly when the feed price is missing or 0. |
| Catalog.PriceFor | script.js:155 | The side of a quote a category uses. `Submit` and `RefreshEntry` state the prices a pin and a refresh take through it. |
| Catalog.FindIndex | script.js:78 | The result is absent exactly when no quote has the name. Otherwise it is a position holding the name with no earlier match. |
| Catalog.Find | script.js:78 | `find` fails exactly when no quote has the name. Otherwise it returns the first matching quote. |
| Watchlist.Other | script.js:201 | A move sends a card to the other category. |
| Watchlist.WithList | script.js:190 | Replacing one container's cards leaves the other container alone. |
| Watchlist.PinItem | script.js:165-190 | Pinning appends exactly one new card (the given price as both pin-time and current price, empty box) to its own container. The other container is untouched and the total grows by one. |
| Watchlist.Submit | script.js:141-162 | Fails exactly when no catalog item has the name. Otherwise it appends one card with the category's side of the first matching quote and leaves the other list untouched. |
| Watchlist.RemoveAt | script.js:200-216 | Removing position `i` keeps the elements before and after it in order, and the multiset loses exactly that element. |
| Watchlist.RemoveAtKeeps | script.js:200-216 | Removing a card keeps a list's category and formatting invariants. |
| Watchlist.Move | script.js:200-204 | The card leaves its list and a card with its name and pin-time price and an empty box is appended to the other list. The total is kept. |
| Watchlist.MoveTwice | script.js:200-204 | Moving a card and then its new card brings the item back to the end of its original list with its pin-time price. The other list is as before. |
| Watchlist.Delete | script.js:207-216 | Exactly that card goes, and every other card of both lists keeps its relative order. |
| Watchlist.EditUserPrice | script.js:194-197 | Only that card's box changes, to `formatNumber` of the typed text. The new text is formatted, and every other card and field is unchanged. |
| Watchlist.RefreshEntry | script.js:73-90 | A card whose name is missing keeps its price. A present card takes the category's side of the first matching quote, and nothing but the current price changes. |
| Watchlist.RefreshList | script.js:73-93 | Refresh applies to every card of a list, in place. |
| Watchlist.Refresh | script.js:70-94 | List lengths, order, names, categories, pin-time prices and boxes never change. Each card is refreshed as one entry. |
| Watchlist.PinItemValid | script.js:165-190 | Pinning keeps every card in its own container with formatted box text. |
| Watchlist.SubmitValid | script.js:141-162 | A successful pin from the form keeps the board valid. |
| Watchlist.MoveValid | script.js:200-204 | Moving a card keeps the board valid. |
| Watchlist.DeleteValid | script.js:207-216 | Deleting a card keeps the board valid. |
| Watchlist.EditUserPriceValid | script.js:194-197 | Typing into a box keeps the board valid. |
| Watchlist.RefreshValid | script.js:70-94 | A refresh keeps the board valid. |
| Watchlist.RefreshIdempotent | script.js:70-94 | Refreshing twice with the same catalog equals refreshing once. |
| Watchlist.Alert | script.js:224-239 | The flash condition of `checkPrice`. `AlertOnTyped` states it in terms of the typed text. |
| Watchlist.AlertOnTyped | script.js:224-239 | After typing, the alert condition holds for a card exactly when the entry is numeric and non-zero and is below (buy) or above (sell) the current price. |
| Watchlist.Flashes | script.js:78-91 | A single card flashes exactly when some quote is the first match for its name and the card alerts at that quote's price for its category. |
| Watchlist.RefreshFlashes | script.js:78-92 | A refresh re-checks one card per list position. A card flashes exactly when its item has a first matching quote and the alert condition holds at that quote's price for the card's category. |
| Watchlist.RefreshFlashesStable | script.js:70-94 | Re-applying an unchanged catalog raises the same alerts. |
| Persistence.ToRecord | script.js:100-105 | The record of one card. `SaveList` and `SaveOrder` state which card each stored record comes from. |
| Persistence.SaveList | script.js:98-106 | One record per card, in order, carrying name, category, current price and box text. |
| Persistence.Save | script.js:96-109 | One record per card on the page. |
| Persistence.SaveOrder | script.js:96-109 | The stored records are the buy-order cards followed by the sell-offer cards, one each, in container order, each carrying its current price. |
| Persistence.SetLastUserPrice | script.js:118-121 | Filling the last card's box changes only that card's text. |
| Persistence.RestoreInto | script.js:114-121 | A restore step leaves the other category's list untouched. |
| Persistence.RestoreBoard | script.js:114-122 | The restore loop on the cards. `RestoreBoardLists` states what each list receives. |
| Persistence.RestoreStep | script.js:114-121 | The literal pin-then-fill step yields the board of `RestoreInto`: the restored card appended to its own list. |
| Persistence.RestoreFrom | script.js:111-123 | The restore loop's board is the fold of the steps. With no records the storage is untouched. With the save after the input, the storage holds exactly the final cards. |
| Persistence.LoadAsWritten | script.js:111-123 | An absent key or empty record list restores an empty page and leaves storage alone. |
| Persistence.Load | script.js:111-123 | The corrected restore shows the same cards as the restore as written and leaves storage equal to the save of those cards. |
| Persistence.Only | script.js:114-118 | Selecting one category's records keeps only records of that category. |
| Persistence.OnlyAppend | script.js:114-118 | Category selection distributes over concatenation of record lists. |
| Persistence.OnlyAll | script.js:114-118 | Selecting a category from records all of that category changes nothing. |
| Persistence.OnlyNone | script.js:114-118 | Selecting a category that no record has gives nothing. |
| Persistence.RestoredList | script.js:114-121 | One restored card per record. |
| Persistence.RestoredListAt | script.js:114-121 | The `k`-th restored card is restored from the `k`-th record. |
| Persistence.RestoreIntoList | script.js:114-121 | One step adds the record's card to its own list and nothing to the other. |
| Persistence.RestoredOnlyStep | script.js:114-121 | Restoring the selected records of a longer record list adds at most the last record's card. |
| Persistence.RestoreBoardLists | script.js:111-123 | Restoring onto an empty page fills each list with that category's records, in stored order. |
| Persistence.RebaseList | script.js:115 | Rebasing only sets each card's pin-time price to its current price. |
| Persistence.SavedListRestores | script.js:96-123 | A valid list's records all carry its category, and restoring them rebuilds the list up to rebasing. |
| Persistence.SavedOnly | script.js:96-109 | The saved records of a category are the records of that category's list. |
| Persistence.LoadList | script.js:111-123 | A load fills each list with that category's stored records, in stored order. |
| Persistence.SaveLoadList | script.js:96-123 | Saving and then loading a valid board gives back each list with its names, categories, prices and box texts. Only pin-time prices are rebased. |
| Persistence.SaveLoadRoundTrip | script.js:96-123 | Reloading a saved valid board yields the board itself, with pin-time prices rebased to the saved current prices. |
| Persistence.RestoredListShape | script.js:114-121 | Cards restored from one category's records belong to it, hold formatted text and are already rebased. |
| Persistence.LoadedList | script.js:111-123 | Every list of a loaded board is well formed and already rebased. |
| Persistence.LoadedBoardShape | script.js:111-123 | Every loaded board is valid, and its pin-time prices equal its current prices. |
| Persistence.LoadStable | script.js:111-123 | With the corrected save order, loading what a load saved shows the same cards again. |
| Persistence.RestoreStepAsWritten | script.js:114-121 | In a restore step as written, the save sees the new card before its box is filled. |
| Persistence.LoadAsWrittenStorage | script.js:111-123 | As written, storage after a load holds the board with the last card's box emptied. |
| Persistence.SaveSingle | script.js:96-109 | A page with a single card saves as that card's record. |
| Persistence.LoadSingle | script.js:111-123 | Loading a single record pins exactly its card, and the other list stays empty. |
| Persistence.LoadAsWrittenSingleStorage | script.js:111-123 | As written, loading one record leaves it stored with an empty user price. |
| Persistence.LoadAsWrittenSingle | script.js:111-123 | As written, one record shows its formatted text on the first load, but the next load shows an empty box. |
| Persistence.LoadAsWrittenLosesUserPrice | script.js:111-123 | On stored `Raw Fish` at 100 with user price "90", the first load shows "90", storage then holds "" and the second load shows "". |
| Countdown.Tick | script.js:128-136 | A tick refreshes exactly when it finds the counter at 0. From 0..30 it shows a value in 1..30 and leaves 0..29, and the counter is the shown value minus one. |
| Countdown.ModSucc | script.js:128-136 | Stepping a count by one steps its residue modulo 30 by one, wrapping to 0. |
| Countdown.AfterClosedForm | script.js:126-138 | After `n >= 1` ticks the counter is `29 - (n - 1) % 30`. |
| Countdown.CounterRange | script.js:126-138 | The counter always stays in 0..30. |
| Countdown.ShownClosedForm | script.js:128-136 | Tick `n` shows `30 - (n - 1) % 30`: the display cycles 30..1 and never shows 0. |
| Countdown.RefreshSchedule | script.js:128-136 | Tick `n` refreshes exactly when `n > 1` and `(n - 1) % 30 == 0`, that is on ticks 31, 61, ... |
| Page.SaveBoard | script.js:96-109 | After `savePinnedItems` the storage matches the cards. |
| Page.Handle | script.js:141-220 | Each user event does its own operation. A submit pins when the name is in the catalog and otherwise changes nothing. A move, delete or typing event on a card performs `Move`, `Delete` or `EditUserPrice`, and on a position holding no card changes nothing. A successful submit and every move, delete or typing event on a card saves, so storage matches the cards afterwards, even when the typed text leaves the box unchanged. User events keep storage in step with the cards. A price refresh saves nothing, installs the new catalog and refreshes the cards. |
| Page.HandleValid | script.js:141-220 | Every event keeps the cards valid. |
| Page.Open | script.js:111-123 | The page opens with an empty catalog and the cards the restore shows. With no stored records, storage is left alone. |
| Page.OpenStorage | script.js:111-123 | With stored records, storage after the page opens holds the restored cards with the last card's price box emptied. |
| Page.OpenNotSynced | script.js:114-121 | On one stored `Raw Fish` buy order with user price "90", the opened page shows "90", but its storage does not match its cards. |
| Page.OpenCorrected | script.js:111-123 | With the save moved after the box is filled, the page shows the same cards, and with stored records its storage matches them. |
| Page.Run | script.js:141-220 | Events handled in order. `RunValid` states that the cards stay valid along any run. |
| Page.RunValid | script.js:141-220 | After any sequence of events from a page load, the cards are valid. |
| Page.ReloadAfterUserEvent | script.js:194-219 | After a user action that changed the cards, a reload shows them again, rebased. |
| Page.ReloadAfterRefresh | script.js:70-94 | A refresh is not saved: a reload shows the cards of the last save. |
| Page.RawFishAlerts | script.js:224-239 | For a buy-order card priced 100, the alert condition holds with "90" in its box and not with "150". |
| Page.RawFishScenario | script.js:141-162 | With "Raw Fish" at buy 100 and sell 120, pinning it as a buy order appends a card priced 100 and saves. A name missing from the catalog changes nothing. |

## Behaviour worth noting


- **Alert on zero.** `checkPrice` skips the alert only when the typed price is NaN or exactly 0 (`userPrice === 0`).
- **Move price.** Move re-pins with the price captured when the card was pinned, not the card's current price and not a fresh catalog price. The moved card starts with an empty price box.
- **Restore and the catalog.** Restore re-pins each record with its stored price and never looks the name up in the catalog.
- **Corrupt storage.** `JSON.parse` throws on malformed storage, so no record is restored. The throw also ends the page-load listener, so `fetchAndUpdateTable`, `startCountdown` and `populateTable` (script.js:333-335) never run, and the page never refreshes its prices. A record with a non-numeric price is re-pinned with `NaN`.
- **Countdown and fetch.** The tick starts the refresh without awaiting it, and the counter resets to 30 whether or not the fetch succeeds.

## Left out

- Network and JSON. Fetching the feed and the name table is left out, and so is decoding them; the catalog and the name table are inputs.
- Error logging is left out.
- `populateTable` appends `"N/A"` entries to `itemData` and races with `fetchAndUpdateTable` at start-up. Both are left out because they are asynchronous interleaving.
- DOM rendering is left out: table rows, the suggestion list, card markup, the placeholder, and the theme toggle with its storage key.
- Timers are left out: the one-second interval is a step function, and the flash add/remove and the two-second `checkPrice` re-checks are not modelled.
- NumberFormat.FormatNumber: prices are non-negative integers with en-US grouping. `isNaN` also accepts signs, fractions, exponents and `Infinity`, and the model rejects those. Hexadecimal, binary and octal literals such as `0x1A` also pass `isNaN`; `parseFloat` then stops at the letter, so the source prints "0" where the model gives "". Whitespace-only text also passes `isNaN`, so the source prints "NaN" where the model gives "". Digits padded with whitespace, such as " 12" or "12 ", pass `isNaN` and `parseFloat` reads 12, so the source prints "12" where the model gives "": typing a space after a number clears the box in the model but not in the source. Locale grouping, and the float printing of huge values, are not modelled.
- NumberFormat.ParseUserPrice: `parseFloat` is read as the leading digit run of the comma-stripped text. Leading whitespace, signs, fractions and exponents are not modelled.
- ItemNames.Upper: `toUpperCase` is modelled for ASCII letters only.
- Watchlist.Alert: reads the card's current price field. `checkPrice` rebuilds the price by joining the digit runs of the displayed text, and for non-negative integer prices that equals the field.
- Persistence.Save: assumes the buy-orders container comes before the sell-offers one in the page. The page markup is not part of this model. Restore depends only on the order within each list, which holds either way.
- Persistence.Record: the stored `price` is a string that restore reads back with `parseFloat`. The model stores the number directly.
- Persistence.RestoreInto: states only that the other list is untouched. Its effect on the record's own list is in `RestoreIntoList` and `RestoreStep`.
- A record whose category is neither container, or whose price is not numeric, is not modelled. In the source the first throws and the second pins a `NaN` price.
- Page.Handle: an event on a position that holds no card cannot come from the page, so the model leaves the state unchanged.
- Page.Handle: every container is assumed to hold its placeholder. The delete handler at script.js:212 uses `placeholder.style` without the guard that line 170 has. In a container without a placeholder, deleting its last card would therefore throw before the save at line 215, and the removed card would stay in storage. The model always saves after a delete.
- Trade volumes are left out; they only feed the table display.

## Findings

| source | as written | input that shows it | evidently intended | confidence | as-written member | corrected member |
|---|---|---|---|---|---|---|
| script.js:114-121 | Each `pinItem` call saves before line 120 fills the new card's price box, and nothing saves after the loop. The stored record of the last restored card therefore loses its user price. | Storage `[{name: "Raw Fish", category: "buy-orders", price: "100", userPrice: "90"}]`. The first load shows "90" but leaves `userPrice: ""` in storage, so the next load shows an empty box. | The storage after a restore matches the restored cards (`Page.OpenCorrected`), so reloading is stable. | high, not executed | Persistence.LoadAsWrittenLosesUserPrice | Persistence.LoadStable |

=== FILE: catalog.dfy ===
/** The price catalog (`itemData`): one quote per feed item, named through the
    name table, searched by exact name with the first match winning. */
module Catalog {
  import opened Wrappers
  import ItemNames

  /** The two watchlists a card can live in: `buy-orders` and `sell-offers`. */
  datatype Category = BuyOrders | SellOffers

  /** One item of the price feed; a missing price field is None. The volume
      fields only feed the table display. */
  datatype FeedItem = FeedItem(itemId: int, lowestSellPrice: Option<nat>, highestBuyPrice: Option<nat>)

  /** One entry of `itemData`. */
  datatype Quote = Quote(name: string, lowestSellPrice: nat, highestBuyPrice: nat)

  /** `price || 0`: a missing price (or a zero one) reads as 0. */
  function PriceOrZero(p: Option<nat>): nat {
    match p
    case None => 0
    case Some(v) => v
  }

  /** The `data.map(...)` that rebuilds `itemData` from the feed and the name table. */
  function BuildCatalog(feed: seq<FeedItem>, rows: seq<ItemNames.NameRow>): (c: seq<Quote>)
    ensures |c| == |feed|
    ensures forall k :: 0 <= k < |c| ==> c[k].name == ItemNames.DisplayName(rows, feed[k].itemId)
    ensures forall k :: 0 <= k < |c| ==> c[k].name != ""
    ensures forall k :: 0 <= k < |c| && feed[k].lowestSellPrice.Some? ==>
      c[k].lowestSellPrice == feed[k].lowestSellPrice.value
    ensures forall k :: 0 <= k < |c| && feed[k].highestBuyPrice.Some? ==>
      c[k].highestBuyPrice == feed[k].highestBuyPrice.value
    ensures forall k :: 0 <= k < |c| ==>
      (c[k].lowestSellPrice == 0 <==> feed[k].lowestSellPrice in {None, Some(0)})
    ensures forall k :: 0 <= k < |c| ==>
      (c[k].highestBuyPrice == 0 <==> feed[k].highestBuyPrice in {None, Some(0)})
  {
    seq(|feed|, k requires 0 <= k < |feed| =>
      Quote(ItemNames.DisplayName(rows, feed[k].itemId),
            PriceOrZero(feed[k].lowestSellPrice),
            PriceOrZero(feed[k].highestBuyPrice)))
  }

  /** The side of a quote that matters for a category: the highest buy price
      for buy orders, the lowest sell price for sell offers. */
  function PriceFor(q: Quote, cat: Category): nat {
    if cat == BuyOrders then q.highestBuyPrice else q.lowestSellPrice
  }

  /** Position of the first quote named `name` (`Array.find`). */
  function FindIndex(c: seq<Quote>, name: string): (r: Option<nat>)
    ensures r.None? <==> forall k :: 0 <= k < |c| ==> c[k].name != name
    ensures r.Some? ==> r.value < |c| && c[r.value].name == name
    ensures r.Some? ==> forall k :: 0 <= k < r.value ==> c[k].name != name
  {
    if c == [] then None
    else if c[0].name == name then Some(0)
    else
      match FindIndex(c[1..], name)
      case None => None
      case Some(k) => Some(k + 1)
  }

  /** The first quote named `name`, if any. */
  function Find(c: seq<Quote>, name: string): (r: Option<Quote>)
    ensures r.None? <==> forall k :: 0 <= k < |c| ==> c[k].name != name
    ensures forall k: nat :: IsFirstMatch(c, name, k) ==> r == Some(c[k])
  {
    match FindIndex(c, name)
    case None => None
    case Some(k) => Some(c[k])
  }

  /** `k` is the position of the first quote named `name`. */
  predicate IsFirstMatch(c: seq<Quote>, name: string, k: nat) {
    k < |c| && c[k].name == name && forall j :: 0 <= j < k ==> c[j].name != name
  }
}

=== FILE: countdown.dfy ===
/** The refresh countdown of `startCountdown`: a counter that starts at 30, is
    shown and decremented once a second, and triggers a catalog refresh (and
    a reset to 30) when a tick finds it at 0. */
module Countdown {
  /** The initial and reset value of `countdownValue`, in seconds. */
  const Period: int := 30

  /** The outcome of one interval callback: the counter it leaves behind, the
      number it writes into the countdown element, and whether it started a
      refresh. */
  datatype TickResult = TickResult(next: int, shown: int, refresh: bool)

  /** One run of the interval callback on counter value `v`. */
  function Tick(v: int): (r: TickResult)
    ensures r.refresh <==> v == 0
    ensures 0 <= v <= Period ==> 1 <= r.shown <= Period && 0 <= r.next < Period
    ensures v != 0 ==> r.shown == v
    ensures r.next == r.shown - 1
  {
    var current := if v == 0 then Period else v;
    TickResult(current - 1, current, v == 0)
  }

  /** The counter after `n` ticks from page load. */
  function After(n: nat): int {
    if n == 0 then Period else Tick(After(n - 1)).next
  }

  /** What the `n`-th tick (counting from 1) shows, and whether it refreshes. */
  function ShownAt(n: nat): int
    requires n >= 1
  {
    Tick(After(n - 1)).shown
  }

  predicate RefreshAt(n: nat)
    requires n >= 1
  {
    Tick(After(n - 1)).refresh
  }

  /** Stepping a count by one steps its residue by one, wrapping at `Period`. */
  lemma ModSucc(k: nat)
    ensures (k + 1) % Period == if k % Period == Period - 1 then 0 else k % Period + 1
  {
    var q, m := k / Period, k % Period;
    assert k == Period * q + m;
    if m == Period - 1 {
      assert k + 1 == Period * (q + 1);
    } else {
      assert k + 1 == Period * q + (m + 1);
    }
  }

  /** After the first tick the counter cycles 29, 28, ..., 0 and back to 29. */
  lemma {:induction false} AfterClosedForm(n: nat)
    requires n >= 1
    ensures After(n) == Period - 1 - (n - 1) % Period
  {
    if n > 1 {
      AfterClosedForm(n - 1);
      ModSucc(n - 2);
      var v := After(n - 1);
      if v == 0 {
        assert After(n) == Period - 1;
      } else {
        assert After(n) == v - 1;
      }
    }
  }

  /** The counter never leaves 0..30. */
  lemma CounterRange(n: nat)
    ensures 0 <= After(n) <= Period
  {
    if n >= 1 {
      AfterClosedForm(n);
    }
  }

  /** The display counts 30, 29, ..., 1 and starts over; 0 is never shown. */
  lemma ShownClosedForm(n: nat)
    requires n >= 1
    ensures ShownAt(n) == Period - (n - 1) % Period
    ensures 1 <= ShownAt(n) <= Period
  {
    AfterClosedForm(n);
  }

  /** The first refresh comes on tick 31 and then every 30 ticks. */
  lemma RefreshSchedule(n: nat)
    requires n >= 1
    ensures RefreshAt(n) <==> n > 1 && (n - 1) % Period == 0
  {
    if n > 1 {
      AfterClosedForm(n - 1);
      ModSucc(n - 2);
    }
  }
}

=== FILE: item_names.dfy ===
/** Display names of market items: `formatItemName` on the underscore-delimited
    `name_id` of the name table, and the id-to-name mapping with its
    `Unknown (<id>)` fallback. */
module ItemNames {
  import opened Text

  /** A `name_id` field of the name table: a string, or any other JSON value. */
  datatype NameId = Text(s: string) | NotText

  /** One row of the name table. */
  datatype NameRow = NameRow(internalId: int, nameId: NameId)

  /** `toUpperCase` on a single character, for the ASCII range. */
  function Upper(c: char): char {
    if 'a' <= c <= 'z' then (c as int - 32) as char else c
  }

  /** `s.split(sep)`: the pieces between separators, empty pieces included. */
  function Split(s: string, sep: char): (words: seq<string>)
    ensures |words| > 0
    ensures forall k :: 0 <= k < |words| ==> sep !in words[k]
  {
    if s == [] then [[]]
    else if s[0] == sep then [[]] + Split(s[1..], sep)
    else
      var rest := Split(s[1..], sep);
      [[s[0]] + rest[0]] + rest[1..]
  }

  /** `words.join(sep)`. */
  function Join(words: seq<string>, sep: char): string
    requires |words| > 0
  {
    if |words| == 1 then words[0] else words[0] + [sep] + Join(words[1..], sep)
  }

  lemma JoinPrepend(c: char, w: string, ws: seq<string>, sep: char)
    ensures Join([[c] + w] + ws, sep) == [c] + Join([w] + ws, sep)
  {
    assert ([[c] + w] + ws)[1..] == ws;
    assert ([w] + ws)[1..] == ws;
  }

  /** Joining the pieces of a split restores the text. */
  lemma {:induction false} JoinSplit(s: string, sep: char)
    ensures Join(Split(s, sep), sep) == s
  {
    if s == [] {
    } else if s[0] == sep {
      var rest := Split(s[1..], sep);
      JoinSplit(s[1..], sep);
      assert ([[]] + rest)[1..] == rest;
      assert s == [sep] + s[1..];
    } else {
      var rest := Split(s[1..], sep);
      JoinSplit(s[1..], sep);
      JoinPrepend(s[0], rest[0], rest[1..], sep);
      assert [rest[0]] + rest[1..] == rest;
      assert s == [s[0]] + s[1..];
    }
  }

  /** `word.charAt(0).toUpperCase() + word.slice(1)`. */
  function Capitalize(w: string): string {
    if w == [] then [] else [Upper(w[0])] + w[1..]
  }

  function CapitalizeAll(ws: seq<string>): (r: seq<string>)
    ensures |r| == |ws|
  {
    if ws == [] then [] else [Capitalize(ws[0])] + CapitalizeAll(ws[1..])
  }

  /** `formatItemName`: "Unknown" for a non-string, otherwise every
      underscore-separated word capitalized and the words joined by spaces. */
  function FormatItemName(n: NameId): string {
    match n
    case NotText => "Unknown"
    case Text(s) => Join(CapitalizeAll(Split(s, '_')), ' ')
  }

  /** What `formatItemName` does to position `i` of its input: an underscore
      becomes a space, the first letter of each word is upper-cased, and every
      other character stays. */
  function TitleChar(s: string, i: nat): char
    requires i < |s|
  {
    if s[i] == '_' then ' '
    else if i == 0 || s[i - 1] == '_' then Upper(s[i])
    else s[i]
  }

  /** Character-by-character title casing; `atStart` says whether the
      previous character ended a word. */
  function TitleCase(s: string, atStart: bool): string {
    if s == [] then []
    else if s[0] == '_' then [' '] + TitleCase(s[1..], true)
    else [if atStart then Upper(s[0]) else s[0]] + TitleCase(s[1..], false)
  }

  lemma {:induction false} TitleCasePointwise(s: string, atStart: bool)
    ensures |TitleCase(s, atStart)| == |s|
    ensures forall i :: 0 < i < |s| ==> TitleCase(s, atStart)[i] == TitleChar(s, i)
    ensures |s| > 0 ==>
      TitleCase(s, atStart)[0] == (if s[0] == '_' then ' ' else if atStart then Upper(s[0]) else s[0])
  {
    if s != [] {
      var t := s[1..];
      TitleCasePointwise(t, s[0] == '_');
      forall i | 1 < i < |s|
        ensures TitleCase(s, atStart)[i] == TitleChar(s, i)
      {
        assert TitleCase(s, atStart)[i] == TitleCase(t, s[0] == '_')[i - 1];
        assert TitleChar(t, i - 1) == TitleChar(s, i);
      }
      if |s| > 1 {
        assert TitleCase(s, atStart)[1] == TitleCase(t, s[0] == '_')[0];
      }
    }
  }

  /** The split-capitalize-join pipeline, with the first word capitalized only
      when `atStart` holds, agrees with character-by-character title casing. */
  lemma {:induction false} PipelineIsTitleCase(s: string, atStart: bool)
    ensures var ws := Split(s, '_');
      Join([if atStart then Capitalize(ws[0]) else ws[0]] + CapitalizeAll(ws[1..]), ' ')
        == TitleCase(s, atStart)
  {
    if s == [] {
    } else if s[0] == '_' {
      var rest := Split(s[1..], '_');
      var ws := Split(s, '_');
      assert ws == [[]] + rest;
      assert ws[1..] == rest;
      PipelineIsTitleCase(s[1..], true);
      assert CapitalizeAll(rest) == [Capitalize(rest[0])] + CapitalizeAll(rest[1..]);
      assert ([[]] + CapitalizeAll(rest))[1..] == CapitalizeAll(rest);
    } else {
      var rest := Split(s[1..], '_');
      var ws := Split(s, '_');
      assert ws == [[s[0]] + rest[0]] + rest[1..];
      assert ws[0] == [s[0]] + rest[0];
      assert ws[1..] == rest[1..];
      var c := if atStart then Upper(s[0]) else s[0];
      var first := if atStart then Capitalize(ws[0]) else ws[0];
      assert first == [c] + rest[0] by {
        assert ([s[0]] + rest[0])[1..] == rest[0];
      }
      PipelineIsTitleCase(s[1..], false);
      JoinPrepend(c, rest[0], CapitalizeAll(rest[1..]), ' ');
    }
  }

  /** `formatItemName` on a string keeps its length, turns every underscore into
      a space, upper-cases the first letter of each word and leaves every other
      character alone; on anything else it answers "Unknown". */
  lemma FormatItemNameSpec(n: NameId)
    ensures n.NotText? ==> FormatItemName(n) == "Unknown"
    ensures n.Text? ==> |FormatItemName(n)| == |n.s|
    ensures n.Text? ==> forall i :: 0 <= i < |n.s| ==> FormatItemName(n)[i] == TitleChar(n.s, i)
  {
    if n.Text? {
      var ws := Split(n.s, '_');
      PipelineIsTitleCase(n.s, true);
      assert CapitalizeAll(ws) == [Capitalize(ws[0])] + CapitalizeAll(ws[1..]);
      TitleCasePointwise(n.s, true);
    }
  }

  /** The `itemIdMap` built by `forEach` over the name table: a later row with
      the same id overwrites an earlier one. */
  function NameMap(rows: seq<NameRow>): map<int, string> {
    if rows == [] then map[]
    else
      var last := rows[|rows| - 1];
      NameMap(rows[..|rows| - 1])[last.internalId := FormatItemName(last.nameId)]
  }

  /** An id that no row mentions is not mapped. */
  lemma {:induction false} NameMapAbsent(rows: seq<NameRow>, id: int)
    requires forall i :: 0 <= i < |rows| ==> rows[i].internalId != id
    ensures id !in NameMap(rows)
  {
    if rows != [] {
      var front := rows[..|rows| - 1];
      assert forall i :: 0 <= i < |front| ==> front[i] == rows[i];
      NameMapAbsent(front, id);
    }
  }

  /** An id is mapped to the formatted `name_id` of the last row that mentions it. */
  lemma {:induction false} NameMapLast(rows: seq<NameRow>, id: int, i: nat)
    requires i < |rows| && rows[i].internalId == id
    requires forall j :: i < j < |rows| ==> rows[j].internalId != id
    ensures id in NameMap(rows) && NameMap(rows)[id] == FormatItemName(rows[i].nameId)
  {
    var front := rows[..|rows| - 1];
    if i < |rows| - 1 {
      assert forall j :: 0 <= j < |front| ==> front[j] == rows[j];
      NameMapLast(front, id, i);
    }
  }

  /** `itemIdMap[id] || "Unknown (<id>)"`: the mapped name, unless it is missing
      or empty. */
  function DisplayName(rows: seq<NameRow>, id: int): (r: string)
    ensures r != ""
  {
    var m := NameMap(rows);
    if id in m && m[id] != "" then m[id] else "Unknown (" + IntToString(id) + ")"
  }

  /** The item's display name is the formatted `name_id` of the LAST row with
      that id, and it falls back to `Unknown (<id>)` exactly when no row has the
      id or that row's `name_id` is the empty string. */
  lemma DisplayNameAbsent(rows: seq<NameRow>, id: int)
    requires forall i :: 0 <= i < |rows| ==> rows[i].internalId != id
    ensures DisplayName(rows, id) == "Unknown (" + IntToString(id) + ")"
  {
    NameMapAbsent(rows, id);
  }

  lemma DisplayNameLast(rows: seq<NameRow>, id: int, i: nat)
    requires i < |rows| && rows[i].internalId == id
    requires forall j :: i < j < |rows| ==> rows[j].internalId != id
    ensures DisplayName(rows, id) ==
      if rows[i].nameId == Text("") then "Unknown (" + IntToString(id) + ")"
      else FormatItemName(rows[i].nameId)
  {
    NameMapLast(rows, id, i);
    FormatItemNameSpec(rows[i].nameId);
    if rows[i].nameId.Text? && rows[i].nameId.s != "" {
      assert |NameMap(rows)[id]| > 0;
    }
  }
}

=== FILE: number_format.dfy ===
/** The price text the user types into a card: `formatNumber`, applied on every
    keystroke and on restore, and the `parseFloat` reading of that text that the
    alert predicate uses. Prices are non-negative integers here. */
module NumberFormat {
  import opened Wrappers
  import opened Text

  /** A numeric entry: after stripping commas, a non-empty run of digits. */
  predicate IsNumeric(raw: string) {
    var t := StripCommas(raw);
    t != "" && AllDigits(t)
  }

  /** The number a numeric entry denotes, commas ignored. */
  function NumericValue(raw: string): nat
    requires IsNumeric(raw)
  {
    Value(StripCommas(raw))
  }

  /** `formatNumber`: strip commas, answer "" for empty or non-numeric text,
      otherwise print the number again with en-US thousands grouping. */
  function FormatNumber(raw: string): string {
    var t := StripCommas(raw);
    if t == "" || !AllDigits(t) then "" else Group(NatToString(Value(t)))
  }

  /** `formatNumber` rejects exactly the non-numeric entries, and what it
      produces is itself numeric and denotes the same number. */
  lemma FormatNumberSpec(raw: string)
    ensures FormatNumber(raw) == "" <==> !IsNumeric(raw)
    ensures FormatNumber(raw) != "" ==>
      IsNumeric(FormatNumber(raw)) && NumericValue(FormatNumber(raw)) == NumericValue(raw)
  {
    if IsNumeric(raw) {
      var digits := NatToString(Value(StripCommas(raw)));
      AllDigitsHasNoComma(digits);
      GroupStripsBack(digits);
    }
  }

  /** Formatting an already formatted entry changes nothing, so the restore path
      may re-apply `formatNumber` to saved text. */
  lemma FormatNumberIdempotent(raw: string)
    ensures FormatNumber(FormatNumber(raw)) == FormatNumber(raw)
  {
    var r := FormatNumber(raw);
    FormatNumberSpec(raw);
    if r != "" {
      var digits := NatToString(Value(StripCommas(raw)));
      AllDigitsHasNoComma(digits);
      GroupStripsBack(digits);
      assert StripCommas(r) == digits;
    }
  }

  /** The en-US regrouping of `toLocaleString`: on a numeric entry the output
      carries a comma exactly every fourth position from the end, and without
      its commas it is the canonical decimal text of the number, with no
      leading zero. */
  lemma FormatNumberGrouped(raw: string)
    requires IsNumeric(raw)
    ensures var r := FormatNumber(raw);
      && (forall i :: 0 <= i < |r| ==> (r[i] == ',' <==> 0 < i && (|r| - i) % 4 == 0))
      && var d := StripCommas(r);
      && |d| > 0 && AllDigits(d) && Value(d) == NumericValue(raw)
      && (d[0] == '0' ==> d == "0")
  {
    var digits := NatToString(NumericValue(raw));
    AllDigitsHasNoComma(digits);
    GroupCommas(digits);
    GroupStripsBack(digits);
  }

  /** An empty input box counts as formatted. */
  lemma EmptyIsFormatted()
    ensures IsFormatted("")
  {
    assert StripCommas("") == "";
  }

  /** Text the page itself could have produced: a fixed point of `formatNumber`. */
  predicate IsFormatted(text: string) {
    FormatNumber(text) == text
  }

  /** `parseFloat(text.replace(/,/g, ""))`, read as the leading run of digits of
      the comma-stripped text; no digits there is NaN, modelled as None. */
  function ParseUserPrice(text: string): (r: Option<nat>)
    ensures r.None? <==> var t := StripCommas(text); t == "" || !IsDigit(t[0])
  {
    var p := DigitPrefix(StripCommas(text));
    if p == "" then None else Some(Value(p))
  }

  /** On a numeric entry the reading is exactly the number it denotes. */
  lemma ParseNumeric(text: string)
    requires IsNumeric(text)
    ensures ParseUserPrice(text) == Some(NumericValue(text))
  {
    DigitPrefixOfDigits(StripCommas(text));
  }

  /** Reading back what `formatNumber` wrote gives the number the user typed,
      and an entry it rejected reads as NaN. */
  lemma ParseFormatted(raw: string)
    ensures ParseUserPrice(FormatNumber(raw)) ==
      (if IsNumeric(raw) then Some(NumericValue(raw)) else None)
  {
    FormatNumberSpec(raw);
    if IsNumeric(raw) {
      ParseNumeric(FormatNumber(raw));
    } else {
      assert StripCommas("") == "";
    }
  }

  /** The entry "90" is numeric, denotes 90 and is already formatted. */
  lemma Ninety()
    ensures IsNumeric("90") && NumericValue("90") == 90 && FormatNumber("90") == "90"
    ensures ParseUserPrice("90") == Some(90)
  {
    assert StripCommas("90") == "90";
    assert Value("90") == 90 by {
      assert "90"[..1] == "9";
      assert Value("9") == 9 by { assert "9"[..0] == ""; }
    }
    assert NatToString(90) == "90";
    ParseNumeric("90");
  }

  /** The entry "150" is numeric, denotes 150 and is already formatted. */
  lemma OneFifty()
    ensures IsNumeric("150") && NumericValue("150") == 150 && FormatNumber("150") == "150"
    ensures ParseUserPrice("150") == Some(150)
  {
    assert StripCommas("150") == "150";
    assert Value("150") == 150 by {
      assert "150"[..2] == "15";
      assert Value("15") == 15 by {
        assert "15"[..1] == "1";
        assert Value("1") == 1 by { assert "1"[..0] == ""; }
      }
    }
    assert NatToString(150) == "150";
    ParseNumeric("150");
  }
}

=== FILE: page.dfy ===
/** The page's event handlers on the whole state: the cards, the `pinnedItems`
    storage key and the catalog. Every user action that changes the cards ends
    in `savePinnedItems`; a price refresh changes current prices but saves
    nothing. */
module Page {
  import opened Wrappers
  import opened NumberFormat
  import opened ItemNames
  import opened Catalog
  import opened Watchlist
  import opened Persistence

  /** The page state: the cards, the storage key, and `itemData`. */
  datatype PageState = PageState(board: Board, storage: Storage, catalog: seq<Quote>)

  /** The events the page reacts to. A move, delete or typing event names a
      card by its container and position; `PricesArrived` is a successful
      `fetchAndUpdateTable` with the fetched feed and name table. */
  datatype Event =
    | SubmitForm(name: string, cat: Category)
    | ClickMove(cat: Category, i: nat)
    | ClickDelete(cat: Category, i: nat)
    | TypePrice(cat: Category, i: nat, raw: string)
    | PricesArrived(feed: seq<FeedItem>, rows: seq<NameRow>)

  predicate IsUserEvent(ev: Event) {
    !ev.PricesArrived?
  }

  /** The storage key holds exactly the records of the cards on the page. */
  predicate Synced(p: PageState) {
    p.storage == Some(Save(p.board))
  }

  /** The cards replaced by `b`, followed by `savePinnedItems`. */
  function SaveBoard(p: PageState, b: Board): (r: PageState)
    ensures Synced(r) && r.board == b && r.catalog == p.catalog
  {
    PageState(b, Some(Save(b)), p.catalog)
  }

  /** One event. A submit of an unknown name only raises an alert; an event on
      a position that holds no card cannot be produced by the page and leaves
      the state as it is. */
  function Handle(p: PageState, ev: Event): (r: PageState)
    ensures IsUserEvent(ev) && Synced(p) ==> Synced(r)
    ensures IsUserEvent(ev) ==> r.catalog == p.catalog
    ensures IsUserEvent(ev) && r.board != p.board ==> Synced(r)
    ensures ev.PricesArrived? ==>
      && r.storage == p.storage
      && r.catalog == BuildCatalog(ev.feed, ev.rows)
      && r.board == Refresh(p.board, r.catalog)
    ensures ev.SubmitForm? ==>
      var s := Submit(p.board, p.catalog, ev.name, ev.cat);
      (s.Failure? ==> r == p) && (s.Success? ==> r.board == s.value)
    ensures ev.ClickMove? && ev.i < |ListOf(p.board, ev.cat)| ==>
      r.board == Move(p.board, ev.cat, ev.i)
    ensures ev.ClickDelete? && ev.i < |ListOf(p.board, ev.cat)| ==>
      r.board == Delete(p.board, ev.cat, ev.i)
    ensures ev.TypePrice? && ev.i < |ListOf(p.board, ev.cat)| ==>
      r.board == EditUserPrice(p.board, ev.cat, ev.i, ev.raw)
    ensures (ev.ClickMove? || ev.ClickDelete? || ev.TypePrice?) && ev.i >= |ListOf(p.board, ev.cat)| ==>
      r == p
    ensures (ev.ClickMove? || ev.ClickDelete? || ev.TypePrice?) && ev.i < |ListOf(p.board, ev.cat)| ==>
      Synced(r)
    ensures ev.SubmitForm? && Submit(p.board, p.catalog, ev.name, ev.cat).Success? ==> Synced(r)
  {
    match ev
    case SubmitForm(name, cat) =>
      (match Submit(p.board, p.catalog, name, cat)
       case Failure(_) => p
       case Success(b) => SaveBoard(p, b))
    case ClickMove(cat, i) =>
      if i < |ListOf(p.board, cat)| then SaveBoard(p, Move(p.board, cat, i)) else p
    case ClickDelete(cat, i) =>
      if i < |ListOf(p.board, cat)| then SaveBoard(p, Delete(p.board, cat, i)) else p
    case TypePrice(cat, i, raw) =>
      if i < |ListOf(p.board, cat)| then SaveBoard(p, EditUserPrice(p.board, cat, i, raw)) else p
    case PricesArrived(feed, rows) =>
      var catalog := BuildCatalog(feed, rows);
      PageState(Refresh(p.board, catalog), p.storage, catalog)
  }

  /** Every event keeps the cards valid. */
  lemma HandleValid(p: PageState, ev: Event)
    requires Valid(p.board)
    ensures Valid(Handle(p, ev).board)
  {
    match ev
    case SubmitForm(name, cat) => SubmitValid(p.board, p.catalog, name, cat);
    case ClickMove(cat, i) =>
      if i < |ListOf(p.board, cat)| { MoveValid(p.board, cat, i); }
    case ClickDelete(cat, i) =>
      if i < |ListOf(p.board, cat)| { DeleteValid(p.board, cat, i); }
    case TypePrice(cat, i, raw) =>
      if i < |ListOf(p.board, cat)| { EditUserPriceValid(p.board, cat, i, raw); }
    case PricesArrived(feed, rows) => RefreshValid(p.board, BuildCatalog(feed, rows));
  }

  /** Events applied in order. */
  function Run(p: PageState, evs: seq<Event>): PageState {
    if evs == [] then p else Handle(Run(p, evs[..|evs| - 1]), evs[|evs| - 1])
  }

  /** Page load: `restorePinnedItems` as written, and an empty `itemData`. */
  function Open(stored: Storage): (r: PageState)
    ensures r.catalog == []
    ensures r.board == Load(stored).board
    ensures Records(stored) == [] ==> r.storage == stored
  {
    var s := LoadAsWritten(stored);
    PageState(s.board, s.storage, [])
  }

  /** As written, a page opened on stored records keeps in storage the restored
      cards with the last card's input box emptied. */
  lemma OpenStorage(stored: Storage)
    requires Records(stored) != []
    ensures var recs := Records(stored);
      var p := Open(stored);
      p.storage == Some(Save(SetLastUserPrice(p.board, recs[|recs| - 1].category, "")))
  {
    LoadAsWrittenStorage(stored);
  }

  /** Opening on one stored buy order with user price "90" shows "90" but
      leaves the page out of step with its storage. */
  lemma OpenNotSynced()
    ensures var p := Open(Some([Record("Raw Fish", BuyOrders, 100, "90")]));
      p.board.buy == [Entry("Raw Fish", BuyOrders, 100, 100, "90")] && !Synced(p)
  {
    LoadAsWrittenLosesUserPrice();
    var b := Board([Entry("Raw Fish", BuyOrders, 100, 100, "90")], []);
    SaveSingle(b, b.buy[0]);
  }

  /** Page load with the save moved after the input box is filled: storage
      holds exactly the restored cards. */
  function OpenCorrected(stored: Storage): (r: PageState)
    ensures r.catalog == [] && r.board == Open(stored).board
    ensures Records(stored) != [] ==> Synced(r)
    ensures Records(stored) == [] ==> r == Open(stored)
  {
    var s := Load(stored);
    PageState(s.board, s.storage, [])
  }

  /** Whatever the user does, the cards stay well formed. */
  lemma {:induction false} RunValid(stored: Storage, evs: seq<Event>)
    ensures Valid(Run(Open(stored), evs).board)
  {
    if evs == [] {
      LoadedBoardShape(stored);
    } else {
      RunValid(stored, evs[..|evs| - 1]);
      HandleValid(Run(Open(stored), evs[..|evs| - 1]), evs[|evs| - 1]);
    }
  }

  /** After any user action that changed the cards, a reload shows the same
      cards; only pin-time prices become the saved current prices. */
  lemma ReloadAfterUserEvent(p: PageState, ev: Event)
    requires Valid(p.board) && IsUserEvent(ev)
    ensures Handle(p, ev).board != p.board ==>
      Load(Handle(p, ev).storage).board == Rebased(Handle(p, ev).board)
  {
    if Handle(p, ev).board != p.board {
      HandleValid(p, ev);
      SaveLoadRoundTrip(Handle(p, ev).board);
    }
  }

  /** A refresh is not saved: a reload shows the prices of the last save. */
  lemma ReloadAfterRefresh(p: PageState, feed: seq<FeedItem>, rows: seq<NameRow>)
    requires Synced(p)
    ensures Load(Handle(p, PricesArrived(feed, rows)).storage) == Load(Some(Save(p.board)))
  {
  }

  /** After typing 90 into a buy-order card priced 100 the alert condition
      holds; after typing 150 it does not. The input handler does not check
      the condition itself: the next refresh or a pending re-check does. Both
      entries are already formatted, so the box keeps them. */
  lemma RawFishAlerts()
    ensures var e := NewCard("Raw Fish", 100, BuyOrders);
      && FormatNumber("90") == "90" && Alert(e.(userPrice := "90"))
      && FormatNumber("150") == "150" && !Alert(e.(userPrice := "150"))
  {
    Ninety();
    OneFifty();
  }

  /** Catalog with "Raw Fish" at highest buy 100 and lowest sell 120: pinning it
      as a buy order takes 100, and the alerts of `RawFishAlerts` follow; a name
      missing from the catalog is refused and nothing changes. */
  lemma RawFishScenario(b: Board)
    ensures var catalog := [Quote("Raw Fish", 120, 100)];
      var p := PageState(b, Some(Save(b)), catalog);
      var p1 := Handle(p, SubmitForm("Raw Fish", BuyOrders));
      && p1.board.buy == b.buy + [NewCard("Raw Fish", 100, BuyOrders)]
      && p1.board.sell == b.sell
      && p1.storage == Some(Save(p1.board))
      && Handle(p, SubmitForm("Ghost Item", BuyOrders)) == p
  {
    var catalog := [Quote("Raw Fish", 120, 100)];
    assert IsFirstMatch(catalog, "Raw Fish", 0);
    assert catalog[0].name != "Ghost Item";
  }
}

=== FILE: persistence.dfy ===
/** `savePinnedItems` and `restorePinnedItems`: the cards written to the
    `pinnedItems` storage key as records, and re-pinned from them on load. */
module Persistence {
  import opened Wrappers
  import opened NumberFormat
  import opened Catalog
  import opened Watchlist

  /** One stored record `{name, category, price, userPrice}`. */
  datatype Record = Record(name: string, category: Category, price: nat, userPrice: string)

  /** The `pinnedItems` key: None when the key is absent. */
  type Storage = Option<seq<Record>>

  /** The board and the storage key together, as a page session sees them. */
  datatype Session = Session(board: Board, storage: Storage)

  const EmptyBoard := Board([], [])

  /** What `savePinnedItems` writes for one card: its current price, not the
      pin-time one. */
  function ToRecord(e: Entry): Record {
    Record(e.name, e.category, e.price, e.userPrice)
  }

  /** The records of one container's cards, in order. */
  function SaveList(l: seq<Entry>): (r: seq<Record>)
    ensures |r| == |l|
    ensures forall k :: 0 <= k < |l| ==> r[k] == ToRecord(l[k])
  {
    seq(|l|, k requires 0 <= k < |l| => ToRecord(l[k]))
  }

  /** `savePinnedItems`: one record per card in document order, the
      buy-orders container before the sell-offers one. */
  function Save(b: Board): (r: seq<Record>)
    ensures |r| == Total(b)
  {
    SaveList(b.buy) + SaveList(b.sell)
  }

  /** The stored records follow document order: the `k`-th buy order, then
      the `k`-th sell offer after all buy orders, each as its own record. */
  lemma SaveOrder(b: Board)
    ensures forall k :: 0 <= k < |b.buy| ==> Save(b)[k] == ToRecord(b.buy[k])
    ensures forall k :: 0 <= k < |b.sell| ==> Save(b)[|b.buy| + k] == ToRecord(b.sell[k])
  {
  }

  /** `JSON.parse(localStorage.getItem(...)) || []`: an absent key reads as no records. */
  function Records(s: Storage): seq<Record> {
    match s
    case None => []
    case Some(recs) => recs
  }

  /** Sets the input box of the last card of category `c`. */
  function SetLastUserPrice(b: Board, c: Category, text: string): (r: Board)
    requires |ListOf(b, c)| > 0
    ensures |ListOf(r, c)| == |ListOf(b, c)|
    ensures ListOf(r, c)[..|ListOf(r, c)| - 1] == ListOf(b, c)[..|ListOf(b, c)| - 1]
    ensures ListOf(r, c)[|ListOf(r, c)| - 1] == ListOf(b, c)[|ListOf(b, c)| - 1].(userPrice := text)
    ensures ListOf(r, Other(c)) == ListOf(b, Other(c))
  {
    var l := ListOf(b, c);
    WithList(b, c, l[|l| - 1 := l[|l| - 1].(userPrice := text)])
  }

  /** The card a record restores to: pinned with the stored price, its input
      box set to `format` of the stored text. The restore loop passes
      `formatNumber` as `format`; the structural lemmas below hold for any. */
  function Restored(rec: Record, format: string -> string): Entry {
    Entry(rec.name, rec.category, rec.price, rec.price, format(rec.userPrice))
  }

  /** One iteration of the restore loop, on the board: the restored card
      appended to its category's list. `RestoreStep` performs it as the source
      does, `pinItem` with the stored price (no catalog check) and then the new
      card's input box filled, and its contract shows the two agree. */
  function RestoreInto(b: Board, rec: Record, format: string -> string): (r: Board)
    ensures ListOf(r, Other(rec.category)) == ListOf(b, Other(rec.category))
  {
    WithList(b, rec.category, ListOf(b, rec.category) + [Restored(rec, format)])
  }

  /** The restore loop on the board alone. */
  function RestoreBoard(b: Board, recs: seq<Record>, format: string -> string): Board {
    if recs == [] then b
    else RestoreInto(RestoreBoard(b, recs[..|recs| - 1], format), recs[|recs| - 1], format)
  }

  /** One iteration of the restore loop, with its effect on storage. `pinItem`
      saves right after pinning; the card's input box is filled afterwards.
      With `saveAfterInput` false this is the loop as written, where that
      save precedes the input; with it true, the save sees the filled input. */
  function RestoreStep(s: Session, rec: Record, saveAfterInput: bool, format: string -> string): (r: Session)
    ensures r.board == RestoreInto(s.board, rec, format)
  {
    var pinned := PinItem(s.board, rec.name, rec.price, rec.category);
    var filled := SetLastUserPrice(pinned, rec.category, format(rec.userPrice));
    Session(filled, Some(Save(if saveAfterInput then filled else pinned)))
  }

  function RestoreFrom(s: Session, recs: seq<Record>, saveAfterInput: bool, format: string -> string): (r: Session)
    ensures r.board == RestoreBoard(s.board, recs, format)
    ensures recs == [] ==> r.storage == s.storage
    ensures recs != [] && saveAfterInput ==> r.storage == Some(Save(r.board))
  {
    if recs == [] then s
    else
      var prev := RestoreFrom(s, recs[..|recs| - 1], saveAfterInput, format);
      RestoreStep(prev, recs[|recs| - 1], saveAfterInput, format)
  }

  /** `restorePinnedItems` as written, starting from a page with no cards. */
  function LoadAsWritten(stored: Storage): (r: Session)
    ensures Records(stored) == [] ==> r == Session(EmptyBoard, stored)
  {
    RestoreFrom(Session(EmptyBoard, stored), Records(stored), false, FormatNumber)
  }

  /** `restorePinnedItems` with the save moved after the input box is filled. */
  function Load(stored: Storage): (r: Session)
    ensures Records(stored) == [] ==> r == Session(EmptyBoard, stored)
    ensures Records(stored) != [] ==> r.storage == Some(Save(r.board))
    ensures r.board == LoadAsWritten(stored).board
  {
    RestoreFrom(Session(EmptyBoard, stored), Records(stored), true, FormatNumber)
  }

  /** The records of category `c`, in their stored order. */
  function Only(recs: seq<Record>, c: Category): (r: seq<Record>)
    ensures |r| <= |recs|
    ensures forall k :: 0 <= k < |r| ==> r[k].category == c
  {
    if recs == [] then []
    else
      var last := recs[|recs| - 1];
      Only(recs[..|recs| - 1], c) + (if last.category == c then [last] else [])
  }

  lemma {:induction false} OnlyAppend(a: seq<Record>, b: seq<Record>, c: Category)
    ensures Only(a + b, c) == Only(a, c) + Only(b, c)
  {
    if b == [] {
      assert a + b == a;
    } else {
      assert (a + b)[..|a + b| - 1] == a + b[..|b| - 1];
      assert (a + b)[|a + b| - 1] == b[|b| - 1];
      OnlyAppend(a, b[..|b| - 1], c);
    }
  }

  lemma {:induction false} OnlyAll(recs: seq<Record>, c: Category)
    requires forall k :: 0 <= k < |recs| ==> recs[k].category == c
    ensures Only(recs, c) == recs
  {
    if recs != [] {
      OnlyAll(recs[..|recs| - 1], c);
    }
  }

  lemma {:induction false} OnlyNone(recs: seq<Record>, c: Category)
    requires forall k :: 0 <= k < |recs| ==> recs[k].category != c
    ensures Only(recs, c) == []
  {
    if recs != [] {
      OnlyNone(recs[..|recs| - 1], c);
    }
  }

  function RestoredList(recs: seq<Record>, format: string -> string): (r: seq<Entry>)
    ensures |r| == |recs|
  {
    if recs == [] then []
    else RestoredList(recs[..|recs| - 1], format) + [Restored(recs[|recs| - 1], format)]
  }

  lemma {:induction false} RestoredListAt(recs: seq<Record>, format: string -> string)
    ensures forall k :: 0 <= k < |recs| ==> RestoredList(recs, format)[k] == Restored(recs[k], format)
  {
    if recs != [] {
      var front := recs[..|recs| - 1];
      RestoredListAt(front, format);
      assert forall k :: 0 <= k < |front| ==> front[k] == recs[k];
    }
  }

  /** One restore step on the list of category `c`. */
  lemma RestoreIntoList(b: Board, rec: Record, c: Category, format: string -> string)
    ensures ListOf(RestoreInto(b, rec, format), c) ==
      ListOf(b, c) + (if rec.category == c then [Restored(rec, format)] else [])
  {
    if rec.category != c {
      assert Other(rec.category) == c;
    }
  }

  lemma RestoredOnlyStep(recs: seq<Record>, c: Category, format: string -> string)
    requires recs != []
    ensures var last := recs[|recs| - 1];
      RestoredList(Only(recs, c), format) ==
        RestoredList(Only(recs[..|recs| - 1], c), format)
          + (if last.category == c then [Restored(last, format)] else [])
  {
    var front, last := recs[..|recs| - 1], recs[|recs| - 1];
    var o := Only(recs, c);
    if last.category == c {
      assert o == Only(front, c) + [last];
      assert o[..|o| - 1] == Only(front, c);
    } else {
      assert o == Only(front, c) + [];
      assert o == Only(front, c);
    }
  }

  /** Restoring onto an empty page puts each record at the end of its own
      category's list, in stored order; the other list never sees it. */
  lemma {:induction false} RestoreBoardLists(recs: seq<Record>, c: Category, format: string -> string)
    ensures ListOf(RestoreBoard(EmptyBoard, recs, format), c) == RestoredList(Only(recs, c), format)
  {
    if recs != [] {
      var front, last := recs[..|recs| - 1], recs[|recs| - 1];
      var prev := RestoreBoard(EmptyBoard, front, format);
      RestoreBoardLists(front, c, format);
      RestoreIntoList(prev, last, c, format);
      RestoredOnlyStep(recs, c, format);
    }
  }

  /** The cards of `l` with their pin-time price set to their current price. */
  function RebaseList(l: seq<Entry>): (r: seq<Entry>)
    ensures |r| == |l|
    ensures forall k :: 0 <= k < |l| ==> r[k] == l[k].(pinPrice := l[k].price)
  {
    seq(|l|, k requires 0 <= k < |l| => l[k].(pinPrice := l[k].price))
  }

  /** What a reload of board `b` yields: restore pins each card with its saved
      current price, so that price becomes the pin-time price too. */
  function Rebased(b: Board): Board {
    Board(RebaseList(b.buy), RebaseList(b.sell))
  }

  /** Restoring the saved records of one valid list rebuilds that list. */
  lemma SavedListRestores(l: seq<Entry>, c: Category)
    requires AllIn(l, c) && AllFormatted(l)
    ensures Only(SaveList(l), c) == SaveList(l)
    ensures Only(SaveList(l), Other(c)) == []
    ensures RestoredList(SaveList(l), FormatNumber) == RebaseList(l)
  {
    OnlyAll(SaveList(l), c);
    OnlyNone(SaveList(l), Other(c));
    RestoredListAt(SaveList(l), FormatNumber);
  }

  /** A load of `stored` fills the list of category `c` with the records of
      that category, in stored order. */
  lemma LoadList(stored: Storage, c: Category)
    ensures ListOf(Load(stored).board, c) == RestoredList(Only(Records(stored), c), FormatNumber)
  {
    RestoreBoardLists(Records(stored), c, FormatNumber);
  }

  /** The saved records of category `c` are exactly the records of that
      category's list. */
  lemma SavedOnly(b: Board, c: Category)
    requires Valid(b)
    ensures Only(Save(b), c) == SaveList(ListOf(b, c))
  {
    SavedListRestores(b.buy, BuyOrders);
    SavedListRestores(b.sell, SellOffers);
    OnlyAppend(SaveList(b.buy), SaveList(b.sell), c);
  }

  /** Round trip of one list. */
  lemma SaveLoadList(b: Board, c: Category)
    requires Valid(b)
    ensures ListOf(Load(Some(Save(b))).board, c) == RebaseList(ListOf(b, c))
  {
    LoadList(Some(Save(b)), c);
    SavedOnly(b, c);
    SavedListRestores(ListOf(b, c), c);
  }

  /** Save/restore round trip: reloading a saved valid board gives back its
      cards, in order, with names, categories, current prices and input text
      intact; only the pin-time price becomes the saved current price. */
  lemma SaveLoadRoundTrip(b: Board)
    requires Valid(b)
    ensures Load(Some(Save(b))).board == Rebased(b)
  {
    SaveLoadList(b, BuyOrders);
    SaveLoadList(b, SellOffers);
  }

  /** Every list of a loaded board holds cards of its own category with
      formatted input text and pin-time price equal to current price. */
  lemma LoadedList(stored: Storage, c: Category)
    ensures var l := ListOf(Load(stored).board, c);
      AllIn(l, c) && AllFormatted(l) && RebaseList(l) == l
  {
    LoadList(stored, c);
    RestoredListShape(Only(Records(stored), c), c);
  }

  /** Cards restored from records of one category are of that category, hold
      formatted input text, and have pin-time price equal to current price. */
  lemma RestoredListShape(recs: seq<Record>, c: Category)
    requires forall k :: 0 <= k < |recs| ==> recs[k].category == c
    ensures var l := RestoredList(recs, FormatNumber);
      AllIn(l, c) && AllFormatted(l) && RebaseList(l) == l
  {
    var l := RestoredList(recs, FormatNumber);
    RestoredListAt(recs, FormatNumber);
    forall rec | rec in recs ensures IsFormatted(FormatNumber(rec.userPrice)) {
      FormatNumberIdempotent(rec.userPrice);
    }
  }

  /** Every loaded board is valid, and its cards already have pin-time price
      equal to current price. */
  lemma LoadedBoardShape(stored: Storage)
    ensures Valid(Load(stored).board)
    ensures Rebased(Load(stored).board) == Load(stored).board
  {
    LoadedList(stored, BuyOrders);
    LoadedList(stored, SellOffers);
  }

  /** With the save after the input, a reload restores exactly what the
      previous load restored: reloading is stable. */
  lemma LoadStable(stored: Storage)
    ensures Load(Load(stored).storage).board == Load(stored).board
  {
    var s := Load(stored);
    if Records(stored) != [] {
      LoadedBoardShape(stored);
      SaveLoadRoundTrip(s.board);
    }
  }

  /** As written, one restore step saves the board as it was before the new
      card's input box was filled. */
  lemma RestoreStepAsWritten(s: Session, rec: Record, format: string -> string)
    ensures var r := RestoreStep(s, rec, false, format);
      r.storage == Some(Save(SetLastUserPrice(r.board, rec.category, "")))
  {
    var c := rec.category;
    var pinned := PinItem(s.board, rec.name, rec.price, c);
    var b := RestoreStep(s, rec, false, format).board;
    var emptied := SetLastUserPrice(b, c, "");
    assert ListOf(emptied, c) == ListOf(pinned, c);
    if c == BuyOrders {
      assert emptied.sell == pinned.sell;
    } else {
      assert emptied.buy == pinned.buy;
    }
  }

  /** As written, the storage after a load holds the board as it was before
      the last card's input box was filled: that card's user price is saved
      as the empty string. */
  lemma LoadAsWrittenStorage(stored: Storage)
    requires Records(stored) != []
    ensures var recs := Records(stored);
      var last := recs[|recs| - 1];
      var b := LoadAsWritten(stored).board;
      LoadAsWritten(stored).storage == Some(Save(SetLastUserPrice(b, last.category, "")))
  {
    var recs := Records(stored);
    var prev := RestoreFrom(Session(EmptyBoard, stored), recs[..|recs| - 1], false, FormatNumber);
    RestoreStepAsWritten(prev, recs[|recs| - 1], FormatNumber);
  }

  /** Loading a single record pins exactly that card. */
  lemma LoadSingle(rec: Record)
    ensures var b := Load(Some([rec])).board;
      ListOf(b, rec.category) == [Restored(rec, FormatNumber)] && ListOf(b, Other(rec.category)) == []
  {
    LoadList(Some([rec]), rec.category);
    LoadList(Some([rec]), Other(rec.category));
    OnlyAll([rec], rec.category);
    OnlyNone([rec], Other(rec.category));
    RestoredListAt([rec], FormatNumber);
  }

  /** A board holding a single card saves as that card's record. */
  lemma SaveSingle(b: Board, e: Entry)
    requires ListOf(b, e.category) == [e] && ListOf(b, Other(e.category)) == []
    ensures Save(b) == [ToRecord(e)]
  {
    if e.category == BuyOrders {
      assert b.sell == [];
    } else {
      assert b.buy == [];
    }
  }

  /** As written, loading a single record leaves it in storage with an empty
      user price. */
  lemma LoadAsWrittenSingleStorage(rec: Record)
    ensures LoadAsWritten(Some([rec])).storage == Some([rec.(userPrice := "")])
  {
    var s := Session(EmptyBoard, Some([rec]));
    assert [rec][..0] == [];
    assert LoadAsWritten(Some([rec])) == RestoreStep(s, rec, false, FormatNumber);
    var pinned := PinItem(EmptyBoard, rec.name, rec.price, rec.category);
    SaveSingle(pinned, NewCard(rec.name, rec.price, rec.category));
  }

  /** As written, one stored record survives the first load with its input
      text formatted, but the storage the load leaves behind holds it with an
      empty user price, and that is what the next load shows. */
  lemma LoadAsWrittenSingle(rec: Record)
    ensures var first := LoadAsWritten(Some([rec]));
      && ListOf(first.board, rec.category) == [Restored(rec, FormatNumber)]
      && first.storage == Some([rec.(userPrice := "")])
      && ListOf(LoadAsWritten(first.storage).board, rec.category) == [Restored(rec.(userPrice := ""), FormatNumber)]
  {
    LoadSingle(rec);
    LoadAsWrittenSingleStorage(rec);
    LoadSingle(rec.(userPrice := ""));
  }

  /** The input that shows it: one stored buy order with user price "90".
      After one load the storage holds it with user price "", so the second
      load shows an empty input box where the first showed "90". */
  lemma LoadAsWrittenLosesUserPrice()
    ensures var stored := Some([Record("Raw Fish", BuyOrders, 100, "90")]);
      var first := LoadAsWritten(stored);
      && first.board.buy == [Entry("Raw Fish", BuyOrders, 100, 100, "90")]
      && first.storage == Some([Record("Raw Fish", BuyOrders, 100, "")])
      && LoadAsWritten(first.storage).board.buy == [Entry("Raw Fish", BuyOrders, 100, 100, "")]
  {
    Ninety();
    EmptyIsFormatted();
    LoadAsWrittenSingle(Record("Raw Fish", BuyOrders, 100, "90"));
  }
}

=== FILE: text.dfy ===
/** Character-level helpers: decimal digits, comma stripping and en-US
    thousands grouping, as the page applies them to prices typed by the user. */
module Text {

  predicate IsDigit(c: char) {
    '0' <= c <= '9'
  }

  predicate AllDigits(s: string) {
    forall i :: 0 <= i < |s| ==> IsDigit(s[i])
  }

  function DigitValue(c: char): nat
    requires IsDigit(c)
  {
    c as int - '0' as int
  }

  function DigitChar(d: nat): (c: char)
    requires d < 10
    ensures IsDigit(c) && DigitValue(c) == d
  {
    ('0' as int + d) as char
  }

  /** The number a digit string denotes, most significant digit first; "" reads as 0. */
  function Value(s: string): nat
    requires AllDigits(s)
  {
    if s == [] then 0 else Value(s[..|s| - 1]) * 10 + DigitValue(s[|s| - 1])
  }

  /** Decimal rendering of a non-negative integer, as a JavaScript number prints
      it: no sign, no leading zero except for 0 itself. */
  function NatToString(n: nat): (r: string)
    ensures |r| > 0 && AllDigits(r)
    ensures r[0] == '0' ==> r == "0"
    ensures Value(r) == n
  {
    if n < 10 then [DigitChar(n)]
    else
      var prefix := NatToString(n / 10);
      var r := prefix + [DigitChar(n % 10)];
      assert r[..|r| - 1] == prefix;
      r
  }

  /** Decimal rendering of an integer, with a leading '-' when negative. */
  function IntToString(i: int): (r: string)
    ensures |r| > 0
    ensures r[0] == '-' <==> i < 0
    ensures i >= 0 ==> AllDigits(r) && Value(r) == i
    ensures i < 0 ==> AllDigits(r[1..]) && Value(r[1..]) == -i
  {
    if i < 0 then
      var digits := NatToString(-i);
      assert ("-" + digits)[1..] == digits;
      "-" + digits
    else NatToString(i)
  }

  /** `s.replace(/,/g, "")`: every comma removed, everything else kept in order. */
  function StripCommas(s: string): (r: string)
    ensures |r| <= |s|
  {
    if s == [] then []
    else (if s[0] == ',' then [] else [s[0]]) + StripCommas(s[1..])
  }

  /** Text without commas is left as it is. */
  lemma {:induction false} StripCommasNoComma(s: string)
    requires ',' !in s
    ensures StripCommas(s) == s
  {
    if s != [] {
      StripCommasNoComma(s[1..]);
    }
  }

  lemma {:induction false} StripCommasAppend(a: string, b: string)
    ensures StripCommas(a + b) == StripCommas(a) + StripCommas(b)
  {
    if a == [] {
      assert a + b == b;
    } else {
      assert (a + b)[1..] == a[1..] + b;
      StripCommasAppend(a[1..], b);
    }
  }

  /** En-US thousands grouping of a digit string: a comma before every block of
      three digits counted from the right. */
  function Group(d: string): string {
    if |d| <= 3 then d
    else Group(d[..|d| - 3]) + "," + d[|d| - 3..]
  }

  /** Grouping adds one comma per full block of three digits beyond the first digit. */
  lemma {:induction false} GroupLength(d: string)
    ensures |d| > 0 ==> |Group(d)| == |d| + (|d| - 1) / 3
  {
    if |d| > 3 {
      GroupLength(d[..|d| - 3]);
    }
  }

  /** Slices of comma-free text are comma-free. */
  lemma NoCommaSlices(d: string, j: nat)
    requires ',' !in d && j <= |d|
    ensures ',' !in d[..j] && ',' !in d[j..]
  {
    assert d == d[..j] + d[j..];
  }

  /** Appending a comma and a comma-free block of three to text whose commas
      sit every fourth position from the end keeps that pattern. */
  lemma CommaPattern(g: string, back: string, i: nat)
    requires |g| > 0 && |back| == 3 && ',' !in back
    requires forall j :: 0 <= j < |g| ==> (g[j] == ',' <==> 0 < j && (|g| - j) % 4 == 0)
    requires i < |g| + 4
    ensures var r := g + "," + back; r[i] == ',' <==> 0 < i && (|r| - i) % 4 == 0
  {
    var r := g + "," + back;
    if i < |g| {
      assert r[i] == g[i];
      assert (|r| - i) % 4 == (|g| - i) % 4;
    } else if i > |g| {
      assert r[i] == back[i - |g| - 1];
    }
  }

  /** In grouped text, the commas sit exactly at the positions 4, 8, 12, ...
      counted back from the end, and nowhere at the front. */
  lemma {:induction false} GroupCommas(d: string)
    requires ',' !in d
    ensures forall i :: 0 <= i < |Group(d)| ==>
      (Group(d)[i] == ',' <==> 0 < i && (|Group(d)| - i) % 4 == 0)
  {
    if |d| > 3 {
      var front, back := d[..|d| - 3], d[|d| - 3..];
      NoCommaSlices(d, |d| - 3);
      GroupCommas(front);
      GroupLength(front);
      var g := Group(front);
      forall i | 0 <= i < |Group(d)|
        ensures Group(d)[i] == ',' <==> 0 < i && (|Group(d)| - i) % 4 == 0
      {
        CommaPattern(g, back, i);
      }
    }
  }

  /** Grouping only inserts commas: stripping them gives the digits back. */
  lemma {:induction false} GroupStripsBack(d: string)
    requires ',' !in d
    ensures StripCommas(Group(d)) == d
  {
    if |d| <= 3 {
      StripCommasNoComma(d);
    } else {
      var front, back := d[..|d| - 3], d[|d| - 3..];
      NoCommaSlices(d, |d| - 3);
      GroupStripsBack(front);
      StripCommasNoComma(back);
      StripCommasAround(Group(front), back);
      assert front + back == d;
    }
  }

  /** Stripping commas drops a comma between two pieces. */
  lemma StripCommasAround(a: string, b: string)
    ensures StripCommas(a + "," + b) == StripCommas(a) + StripCommas(b)
  {
    var cb := "," + b;
    assert a + "," + b == a + cb;
    StripCommasAppend(a, cb);
    assert cb[0] == ',' && cb[1..] == b;
  }

  /** The longest run of digits at the front of `s`. */
  function DigitPrefix(s: string): (p: string)
    ensures p <= s && AllDigits(p)
    ensures |p| < |s| ==> !IsDigit(s[|p|])
  {
    if s == [] || !IsDigit(s[0]) then []
    else [s[0]] + DigitPrefix(s[1..])
  }

  lemma DigitPrefixOfDigits(s: string)
    requires AllDigits(s)
    ensures DigitPrefix(s) == s
  {
  }

  lemma AllDigitsHasNoComma(s: string)
    requires AllDigits(s)
    ensures ',' !in s
  {
  }
}

=== FILE: watchlist.dfy ===
/** The pinned cards: two ordered lists, one per category container, and the
    operations the page performs on them — pin from the form, move, delete,
    edit the user's price, refresh prices from the catalog — together with
    the price-alert predicate of `checkPrice`. */
module Watchlist {
  import opened Wrappers
  import opened NumberFormat
  import opened Catalog

  /** One card. `pinPrice` is the price the card was pinned with (the `price`
      its move handler reuses), `price` is its current price (`dataset.price`),
      and `userPrice` is the text of its input box. */
  datatype Entry = Entry(name: string, category: Category, pinPrice: nat, price: nat, userPrice: string)

  /** The cards of the `#buy-orders` and `#sell-offers` containers, in order. */
  datatype Board = Board(buy: seq<Entry>, sell: seq<Entry>)

  /** The category a move sends a card to. */
  function Other(c: Category): (o: Category)
    ensures o != c
  {
    if c == BuyOrders then SellOffers else BuyOrders
  }

  function ListOf(b: Board, c: Category): seq<Entry> {
    if c == BuyOrders then b.buy else b.sell
  }

  /** Replaces the list of category `c`, leaving the other list alone. */
  function WithList(b: Board, c: Category, l: seq<Entry>): (r: Board)
    ensures ListOf(r, c) == l
    ensures ListOf(r, Other(c)) == ListOf(b, Other(c))
  {
    if c == BuyOrders then b.(buy := l) else b.(sell := l)
  }

  function Total(b: Board): nat {
    |b.buy| + |b.sell|
  }

  predicate AllIn(l: seq<Entry>, c: Category) {
    forall k :: 0 <= k < |l| ==> l[k].category == c
  }

  predicate AllFormatted(l: seq<Entry>) {
    forall k :: 0 <= k < |l| ==> IsFormatted(l[k].userPrice)
  }

  /** What every reachable board satisfies: each card sits in the container of
      its own category, and each input box holds text `formatNumber` produced. */
  predicate Valid(b: Board) {
    && AllIn(b.buy, BuyOrders) && AllIn(b.sell, SellOffers)
    && AllFormatted(b.buy) && AllFormatted(b.sell)
  }

  /** A freshly created card: current price equal to the pin price, empty input. */
  function NewCard(name: string, price: nat, cat: Category): Entry {
    Entry(name, cat, price, price, "")
  }

  /** `pinItem`: a new card at the end of its category's container. */
  function PinItem(b: Board, name: string, price: nat, cat: Category): (r: Board)
    ensures ListOf(r, cat) == ListOf(b, cat) + [NewCard(name, price, cat)]
    ensures ListOf(r, Other(cat)) == ListOf(b, Other(cat))
    ensures Total(r) == Total(b) + 1
  {
    WithList(b, cat, ListOf(b, cat) + [NewCard(name, price, cat)])
  }

  datatype PinError = ItemNotFound

  /** The search-form submit handler: look the name up in the catalog, refuse
      an unknown name, otherwise pin it with the price of the category's side
      of the first matching quote. */
  function Submit(b: Board, catalog: seq<Quote>, name: string, cat: Category): (r: Result<Board, PinError>)
    ensures r.Failure? <==> forall k :: 0 <= k < |catalog| ==> catalog[k].name != name
    ensures forall k: nat :: IsFirstMatch(catalog, name, k) ==>
      && r.Success?
      && ListOf(r.value, cat) == ListOf(b, cat) + [NewCard(name, PriceFor(catalog[k], cat), cat)]
      && ListOf(r.value, Other(cat)) == ListOf(b, Other(cat))
  {
    match Find(catalog, name)
    case None => Failure(ItemNotFound)
    case Some(q) => Success(PinItem(b, name, PriceFor(q, cat), cat))
  }

  /** `s` without its element at position `i`, the rest in the same order. */
  function RemoveAt<T>(s: seq<T>, i: nat): (r: seq<T>)
    requires i < |s|
    ensures |r| == |s| - 1
    ensures forall k :: 0 <= k < i ==> r[k] == s[k]
    ensures forall k :: i <= k < |r| ==> r[k] == s[k + 1]
    ensures multiset(r) + multiset{s[i]} == multiset(s)
  {
    assert s == s[..i] + [s[i]] + s[i + 1..];
    s[..i] + s[i + 1..]
  }

  lemma RemoveAtKeeps(l: seq<Entry>, i: nat)
    requires i < |l|
    ensures forall c :: AllIn(l, c) ==> AllIn(RemoveAt(l, i), c)
    ensures AllFormatted(l) ==> AllFormatted(RemoveAt(l, i))
  {
    var r := RemoveAt(l, i);
    assert forall k :: 0 <= k < |r| ==> r[k] == l[if k < i then k else k + 1];
  }

  /** The move handler: the card leaves its container and a new card for the
      same item, with the price captured at pin time and an empty input box,
      is pinned at the end of the other category. */
  function Move(b: Board, cat: Category, i: nat): (r: Board)
    requires i < |ListOf(b, cat)|
    ensures ListOf(r, cat) == RemoveAt(ListOf(b, cat), i)
    ensures var e := ListOf(b, cat)[i];
      ListOf(r, Other(cat)) == ListOf(b, Other(cat)) + [NewCard(e.name, e.pinPrice, Other(cat))]
    ensures Total(r) == Total(b)
  {
    var e := ListOf(b, cat)[i];
    PinItem(WithList(b, cat, RemoveAt(ListOf(b, cat), i)), e.name, e.pinPrice, Other(cat))
  }

  /** Moving a card and then moving its new card back brings the item home, at
      the end of its original list, with its pin-time price and an empty input;
      the other list is as it was. */
  lemma MoveTwice(b: Board, cat: Category, i: nat)
    requires i < |ListOf(b, cat)|
    ensures var e := ListOf(b, cat)[i];
      var b2 := Move(Move(b, cat, i), Other(cat), |ListOf(b, Other(cat))|);
      && ListOf(b2, cat) == RemoveAt(ListOf(b, cat), i) + [NewCard(e.name, e.pinPrice, cat)]
      && ListOf(b2, Other(cat)) == ListOf(b, Other(cat))
      && Total(b2) == Total(b)
  {
    var e := ListOf(b, cat)[i];
    var b1 := Move(b, cat, i);
    var j := |ListOf(b, Other(cat))|;
    assert ListOf(b1, Other(cat))[j] == NewCard(e.name, e.pinPrice, Other(cat));
    assert Other(Other(cat)) == cat;
    assert RemoveAt(ListOf(b1, Other(cat)), j) == ListOf(b, Other(cat));
  }

  /** The delete handler: exactly that card goes, everything else stays in order. */
  function Delete(b: Board, cat: Category, i: nat): (r: Board)
    requires i < |ListOf(b, cat)|
    ensures ListOf(r, cat) == RemoveAt(ListOf(b, cat), i)
    ensures ListOf(r, Other(cat)) == ListOf(b, Other(cat))
    ensures Total(r) == Total(b) - 1
  {
    WithList(b, cat, RemoveAt(ListOf(b, cat), i))
  }

  /** The input handler: the box's text is replaced by `formatNumber` of what
      was typed; no other card and no other field changes. */
  function EditUserPrice(b: Board, cat: Category, i: nat, raw: string): (r: Board)
    requires i < |ListOf(b, cat)|
    ensures |ListOf(r, cat)| == |ListOf(b, cat)|
    ensures forall k :: 0 <= k < |ListOf(b, cat)| && k != i ==> ListOf(r, cat)[k] == ListOf(b, cat)[k]
    ensures ListOf(r, cat)[i].userPrice == FormatNumber(raw)
    ensures ListOf(r, cat)[i] == ListOf(b, cat)[i].(userPrice := ListOf(r, cat)[i].userPrice)
    ensures IsFormatted(ListOf(r, cat)[i].userPrice)
    ensures ListOf(r, Other(cat)) == ListOf(b, Other(cat))
  {
    var l := ListOf(b, cat);
    FormatNumberIdempotent(raw);
    WithList(b, cat, l[i := l[i].(userPrice := FormatNumber(raw))])
  }

  /** One card of `updatePinnedPrices`: a card whose item is in the catalog
      takes the category's side of the first matching quote as its current
      price; a card whose item is missing is skipped. */
  function RefreshEntry(e: Entry, catalog: seq<Quote>): (r: Entry)
    ensures r == e.(price := r.price)
    ensures (forall k :: 0 <= k < |catalog| ==> catalog[k].name != e.name) ==> r == e
    ensures forall k: nat :: IsFirstMatch(catalog, e.name, k) ==> r.price == PriceFor(catalog[k], e.category)
  {
    match Find(catalog, e.name)
    case None => e
    case Some(q) => e.(price := PriceFor(q, e.category))
  }

  function RefreshList(l: seq<Entry>, catalog: seq<Quote>): (r: seq<Entry>)
    ensures |r| == |l|
    ensures forall k :: 0 <= k < |l| ==> r[k] == RefreshEntry(l[k], catalog)
  {
    seq(|l|, k requires 0 <= k < |l| => RefreshEntry(l[k], catalog))
  }

  /** `updatePinnedPrices`: every card refreshed, no card added, removed or
      reordered, and only current prices change. */
  function Refresh(b: Board, catalog: seq<Quote>): (r: Board)
    ensures forall c :: |ListOf(r, c)| == |ListOf(b, c)|
    ensures forall c, k :: 0 <= k < |ListOf(b, c)| ==>
      ListOf(r, c)[k] == ListOf(b, c)[k].(price := ListOf(r, c)[k].price)
    ensures forall c, k :: 0 <= k < |ListOf(b, c)| ==>
      ListOf(r, c)[k] == RefreshEntry(ListOf(b, c)[k], catalog)
  {
    Board(RefreshList(b.buy, catalog), RefreshList(b.sell, catalog))
  }

  /** Applying the same catalog twice is the same as applying it once. */
  lemma RefreshIdempotent(b: Board, catalog: seq<Quote>)
    ensures Refresh(Refresh(b, catalog), catalog) == Refresh(b, catalog)
  {
    var r := Refresh(b, catalog);
    assert Refresh(r, catalog).buy == r.buy;
    assert Refresh(r, catalog).sell == r.sell;
  }

  /** Pinning keeps the board valid: the new card sits in its own container
      with an empty, hence formatted, input box. */
  lemma PinItemValid(b: Board, name: string, price: nat, cat: Category)
    requires Valid(b)
    ensures Valid(PinItem(b, name, price, cat))
  {
    EmptyIsFormatted();
  }

  lemma SubmitValid(b: Board, catalog: seq<Quote>, name: string, cat: Category)
    requires Valid(b)
    ensures Submit(b, catalog, name, cat).Success? ==> Valid(Submit(b, catalog, name, cat).value)
  {
    match Find(catalog, name)
    case None =>
    case Some(q) => PinItemValid(b, name, PriceFor(q, cat), cat);
  }

  lemma MoveValid(b: Board, cat: Category, i: nat)
    requires i < |ListOf(b, cat)| && Valid(b)
    ensures Valid(Move(b, cat, i))
  {
    var e := ListOf(b, cat)[i];
    RemoveAtKeeps(ListOf(b, cat), i);
    PinItemValid(WithList(b, cat, RemoveAt(ListOf(b, cat), i)), e.name, e.pinPrice, Other(cat));
  }

  lemma DeleteValid(b: Board, cat: Category, i: nat)
    requires i < |ListOf(b, cat)| && Valid(b)
    ensures Valid(Delete(b, cat, i))
  {
    RemoveAtKeeps(ListOf(b, cat), i);
  }

  lemma EditUserPriceValid(b: Board, cat: Category, i: nat, raw: string)
    requires i < |ListOf(b, cat)| && Valid(b)
    ensures Valid(EditUserPrice(b, cat, i, raw))
  {
  }

  lemma RefreshValid(b: Board, catalog: seq<Quote>)
    requires Valid(b)
    ensures Valid(Refresh(b, catalog))
  {
  }

  /** The flash condition of `checkPrice`: no alert when the comma-stripped
      input reads as NaN or as exactly 0; otherwise a buy order alerts when the
      user's price is below the current price and a sell offer when it is above. */
  predicate Alert(e: Entry) {
    match ParseUserPrice(e.userPrice)
    case None => false
    case Some(u) => u != 0 && (if e.category == BuyOrders then u < e.price else u > e.price)
  }

  /** The alert condition in terms of what the user typed into the box. */
  lemma AlertOnTyped(e: Entry, raw: string)
    ensures Alert(e.(userPrice := FormatNumber(raw))) <==>
      && IsNumeric(raw)
      && NumericValue(raw) != 0
      && (if e.category == BuyOrders then NumericValue(raw) < e.price else NumericValue(raw) > e.price)
  {
    ParseFormatted(raw);
  }

  /** Whether `updatePinnedPrices` makes a card flash: only a card whose item
      is in the catalog is re-checked, and it flashes when the alert condition
      holds at the price of the first matching quote. */
  predicate Flashes(e: Entry, catalog: seq<Quote>)
    ensures Flashes(e, catalog) <==> exists j: nat ::
      IsFirstMatch(catalog, e.name, j) && Alert(e.(price := PriceFor(catalog[j], e.category)))
  {
    match FindIndex(catalog, e.name)
    case None => false
    case Some(j) =>
      assert IsFirstMatch(catalog, e.name, j);
      Alert(e.(price := PriceFor(catalog[j], e.category)))
  }

  /** The flashes of one refresh, card by card. */
  function RefreshFlashes(l: seq<Entry>, catalog: seq<Quote>): (f: seq<bool>)
    ensures |f| == |l|
    ensures forall k :: 0 <= k < |l| ==> (f[k] <==> exists j: nat ::
      IsFirstMatch(catalog, l[k].name, j) && Alert(l[k].(price := PriceFor(catalog[j], l[k].category))))
  {
    seq(|l|, k requires 0 <= k < |l| => Flashes(l[k], catalog))
  }

  /** Re-applying an unchanged catalog raises exactly the same alerts. */
  lemma RefreshFlashesStable(l: seq<Entry>, catalog: seq<Quote>)
    ensures RefreshFlashes(RefreshList(l, catalog), catalog) == RefreshFlashes(l, catalog)
  {
    var r := RefreshList(l, catalog);
    forall k | 0 <= k < |l|
      ensures RefreshFlashes(r, catalog)[k] == RefreshFlashes(l, catalog)[k]
    {
      assert r[k] == l[k].(price := r[k].price);
    }
  }
}

=== FILE: wrappers.dfy ===
/** Failure-carrying values shared by the watchlist model. */
module Wrappers {

  /** A value that may be missing: a failed `Array.find`, an absent storage key,
      a `parseFloat` that yields NaN. */
  datatype Option<+T> = None | Some(value: T)

  /** The outcome of an action that can be refused. */
  datatype Result<+T, +E> = Success(value: T) | Failure(error: E)
}
